=== FILE: README.md ===
# Page editor core, modelled in Dafny

This project models the logic of a small single-page note editor. A sidebar
lists pages. A main panel shows one page and lets the user edit its title
and body one field at a time. Pages are stored through a remote content API.

The model has seven parts, one per source file:

- `SchemaValidation` (`schema_validation.dfy`): the title and body schemas.
  A title has 1 to 50 characters and a body has 10 to 2000. A schema runs its
  minimum check and then its maximum check, and records one issue per failed
  check. Messages are copied from the code.
- `FieldValidation` (`field_validation.dfy`): the second set of validators.
  Each returns no error or a `{field, message}` error. `ValidatePage` pushes
  the title error and then the content error onto a list.
- `PageEditorHook.EditorState` (`page_editor_hook.dfy`): the editor hook's
  state. It holds two drafts, two optional errors, the committed values (the
  props) and a ghost log of the `onSave` calls.
- `PageEditorView.PageEditor` (`page_editor.dfy`): the editor component.
  It holds one view/edit flag per field and the start, change, cancel and
  save handlers, which drive the hook.
- `Pages` (`pages.dfy`): the page collection. It has the list operations the
  collection uses (`find`, `map` replace, `filter`) and the `PagesStore`
  class. The store holds `pages` (undefined until loaded),
  `currentPageId`, and a ghost log of the requests sent to the content API.
  Its invariant `SelectionValid` says two things once pages are loaded:
  the selection is null or names a listed page, and a non-empty list has a
  selection.
- `SidebarView` (`sidebar.dfy`): the sidebar's `isEditMode` gate over the
  store.
- `PageView` (`app_page.dfy`): the page-level `handleSave` that forwards the
  editor's `onSave` to `updatePage`.

Answers from outside the program are parameters of the operations. These are
the content API's response, the confirmation dialog's yes/no, the clock and
the UUID generator. A response that failed to arrive, had a non-ok status or
did not parse is `None`.

Facts about the code that the model keeps:

- Every validation message is the Japanese string written in the code.
- `createPage` makes a client-side page with a `client-temp-<uuid>` id and
  sends no request. The first save of that page POSTs it, and the server's
  record then takes its place in the list and in the selection.
- `deletePage` does not look at the DELETE response's status. Only a fetch
  that rejects stops the page being removed locally.
- In edit mode the sidebar ignores row clicks, so a row click cannot change
  the selection. Deleting the selected page from the list still moves it.

## Model

| member | source | states |
|---|---|---|
| `SchemaValidation.SafeParse` | app/lib/validation.ts:7-19 | A value is accepted iff min ≤ length ≤ max, and then the parsed data is the value itself. A rejection carries one or two issues: the min message first when the value is too short, the max message last when it is too long. |
| `SchemaValidation.SingleIssue` | app/lib/validation.ts:7-19 | When the bounds are in order, the min and max checks cannot both fail. A rejected value therefore carries exactly one issue, the message of the check that failed, so `issues[0]` is well defined. |
| `SchemaValidation.FirstIssue` | app/hooks/usePageEditor.ts:24-26 | The message the hook reads from `issues[0]` is the min message for a too-short value and the max message for a too-long one. |
| `SchemaValidation.ValidateTitle` | app/lib/validation.ts:26-28 | A title is accepted iff 1 ≤ length ≤ 50, both bounds inclusive. An empty title fails with exactly [「タイトルは1文字以上で入力してください」]. A title longer than 50 fails with exactly [「タイトルは50文字以下で入力してください」]. |
| `SchemaValidation.ValidateBody` | app/lib/validation.ts:35-37 | A body is accepted iff 10 ≤ length ≤ 2000, both bounds inclusive. A body shorter than 10 fails with exactly the 10-character message. A body longer than 2000 fails with exactly the 2000-character message. |
| `SchemaValidation.VerdictDependsOnLengthOnly` | app/lib/validation.ts:7-19 | Two values of equal length get the same verdict, and the same issues when rejected. |
| `FieldValidation.ValidateTitle` | app/utils/validation.ts:16-30 | The result is null iff 1 ≤ length ≤ 50. Any error names the `title` field. An empty title gives 「タイトルを入力してください」. A title longer than 50 gives 「タイトルは50文字以内で入力してください」. |
| `FieldValidation.ValidateContent` | app/utils/validation.ts:37-51 | The result is null iff 10 ≤ length ≤ 2000. Any error names the `content` field. A too-short body carries the 10-character message and a too-long body the 2000-character one. |
| `FieldValidation.ValidatePage` | app/utils/validation.ts:56-73 | `isValid` holds iff `errors` is empty, and iff both field validators return null. There are at most two errors, and a title error precedes a content error. The list holds exactly the errors the two validators report. |
| `FieldValidation.AgreesWithSchemas` | app/utils/validation.ts:11-15 | Both sets of validators accept exactly the same titles and bodies. Their title messages differ. |
| `PageEditorHook.EditorState.constructor` | app/hooks/usePageEditor.ts:12-20 | The drafts start as the given committed values (default `""`), both errors are undefined, and no `onSave` call has been made. |
| `PageEditorHook.EditorState.ReceiveProps` | app/hooks/usePageEditor.ts:12-18 | A later render changes only the committed values the closures read. The `useState` drafts and errors keep their contents. |
| `PageEditorHook.EditorState.SetTitle` | app/hooks/usePageEditor.ts:17 | Replaces the title draft and nothing else. It does not validate and does not clear the error. |
| `PageEditorHook.EditorState.SetBody` | app/hooks/usePageEditor.ts:18 | Replaces the body draft and nothing else. It does not validate and does not clear the error. |
| `PageEditorHook.EditorState.ValidateTitleDraft` | app/hooks/usePageEditor.ts:23-31 | Returns true iff the title schema accepts the value. It clears the title error on success and sets it to the schema's first issue on failure. Only `titleError` changes. |
| `PageEditorHook.EditorState.ValidateBodyDraft` | app/hooks/usePageEditor.ts:34-42 | Returns true iff the body schema accepts the value. It clears the body error on success and sets it to the schema's first issue on failure. Only `bodyError` changes. |
| `PageEditorHook.EditorState.HandleSaveTitle` | app/hooks/usePageEditor.ts:45-51 | Returns true iff the title draft passes the title schema. On success the error is cleared and exactly one `onSave(draft title, committed body)` call is logged. On failure the error is the schema message and no call is logged. Drafts, the body error and the props are unchanged, and the log stays free of pairs with neither field valid. |
| `PageEditorHook.EditorState.HandleSaveBody` | app/hooks/usePageEditor.ts:54-60 | Returns true iff the body draft passes the body schema. On success the error is cleared and exactly one `onSave(committed title, draft body)` call is logged. On failure the error is the schema message and no call is logged. Drafts, the title error and the props are unchanged. |
| `PageEditorHook.EditorState.ClearTitleError` | app/hooks/usePageEditor.ts:63 | Resets the title error and nothing else. |
| `PageEditorHook.EditorState.ClearBodyError` | app/hooks/usePageEditor.ts:64 | Resets the body error and nothing else. |
| `PageEditorView.PageEditor.constructor` | app/components/PageEditor/PageEditor.tsx:14-37 | Both fields start in view mode, and the hook is created with the page's title and body. |
| `PageEditorView.PageEditor.OnStartTitleEdit` | app/components/PageEditor/PageEditor.tsx:63-67 | The title draft becomes the committed title, the title error is cleared and title edit mode is on. The body's draft, error and flag are untouched, and no `onSave` call is made. |
| `PageEditorView.PageEditor.OnStartContentEdit` | app/components/PageEditor/PageEditor.tsx:69-73 | The body draft becomes the committed body, the body error is cleared and body edit mode is on. The title side is untouched. |
| `PageEditorView.PageEditor.OnChangeTitle` | app/components/PageEditor/PageEditor.tsx:85 | Typing replaces the title draft only. |
| `PageEditorView.PageEditor.OnChangeContent` | app/components/PageEditor/PageEditor.tsx:119 | Typing replaces the body draft only. |
| `PageEditorView.PageEditor.OnCancelTitle` | app/components/PageEditor/PageEditor.tsx:45-49 | The title draft is restored to the committed title, the error is cleared and edit mode is off. There is no `onSave` call, and the body side is untouched. |
| `PageEditorView.PageEditor.OnCancelContent` | app/components/PageEditor/PageEditor.tsx:57-61 | The body draft is restored to the committed body, the error is cleared and edit mode is off. There is no `onSave` call, and the title side is untouched. |
| `PageEditorView.PageEditor.OnSaveTitle` | app/components/PageEditor/PageEditor.tsx:39-43 | Title edit mode ends iff the draft title is valid, and then `onSave(draft title, committed body)` is logged once. An invalid draft keeps edit mode and shows the schema message. The body side is untouched. |
| `PageEditorView.PageEditor.OnSaveContent` | app/components/PageEditor/PageEditor.tsx:51-55 | Body edit mode ends iff the draft body is valid, and then `onSave(committed title, draft body)` is logged once. An invalid draft keeps edit mode and shows the schema message. The title side is untouched. |
| `PageEditorView.PageEditor.TitleHeading` | app/components/PageEditor/PageEditor.tsx:104 | View mode shows the committed title, never the draft. It shows the placeholder only when the committed title is empty (or equals the placeholder). |
| `PageEditorView.PageEditor.BodyPreview` | app/components/PageEditor/PageEditor.tsx:140 | View mode shows the committed body, never the draft. It shows the placeholder only when the committed body is empty (or equals the placeholder). |
| `PageEditorView.StartTypeCancelTitle` | app/components/PageEditor/PageEditor.tsx:45-67 | Start-edit, any typing, then cancel ends with the draft equal to the committed title, no error, view mode, and no `onSave` call. |
| `Pages.TempId` | app/hooks/usePages.ts:60 | A `client-temp-` + uuid id is always recognised as a new page, and the uuid can be read back from it. |
| `Pages.FindById` | app/hooks/usePages.ts:55 | `find` gives a page iff some page carries the id. The page it gives is in the list and carries that id. |
| `Pages.FindByIdIsFirst` | app/hooks/usePages.ts:55 | `find` gives the first page carrying the id. |
| `Pages.ReplaceById` | app/hooks/usePages.ts:114 | The `map` keeps the length. It puts the returned record at every position whose id matches and leaves every other page as it was. |
| `Pages.ReplaceUnlisted` | app/hooks/usePages.ts:114 | When no page carries the id, the `map` changes nothing. |
| `Pages.ReplaceListed` | app/hooks/usePages.ts:111-119 | After a listed id is replaced, the returned record is listed, and so is every other id that was listed. |
| `Pages.RemoveById` | app/hooks/usePages.ts:130 | The `filter` keeps exactly the pages with another id, never grows the list, and leaves no page with that id. |
| `Pages.RemoveByIdAppend` | app/hooks/usePages.ts:130 | The `filter` keeps the order of the remaining pages, because it distributes over concatenation. |
| `Pages.RemoveUnlisted` | app/hooks/usePages.ts:130 | Filtering out an id that no page carries leaves the list unchanged. |
| `Pages.RemoveListedShrinks` | app/hooks/usePages.ts:130 | Filtering out a listed id makes the list strictly shorter. |
| `Pages.RemoveKeepsOthers` | app/hooks/usePages.ts:130-136 | Every other listed id is still listed after the `filter`. |
| `Pages.PagesStore.constructor` | app/hooks/usePages.ts:29-30 | Before loading, `pages` is undefined, nothing is selected, and no request has been sent. |
| `Pages.PagesStore.Load` | app/hooks/usePages.ts:33-52 | One GET is sent. On success the fetched list replaces whatever the list held and its first page is selected if there is one. On failure the list becomes `[]`, never undefined. An empty or failed load keeps the old selection. The selection invariant holds afterwards when nothing was selected before or the load brought at least one page; otherwise a page created before the answer is lost while the selection still names it. |
| `Pages.PagesStore.Current` | app/hooks/usePages.ts:55 | `currentPage` is undefined iff nothing is loaded. Otherwise it is a listed page carrying the selected id, or null when no page carries it. Under the invariant, a loaded store with a selection always finds its page. |
| `Pages.PagesStore.SetCurrentPageId` | app/hooks/usePages.ts:143 | Sets the selection. The invariant is kept when the id is listed. |
| `Pages.PagesStore.CreatePage` | app/hooks/usePages.ts:58-70 | Appends exactly one blank page with a `client-temp-` id and selects it. Earlier pages stay unchanged and in order, an undefined list becomes `[newPage]`, and no request is sent. It may be called from any state, including one whose selection dangles, and the selection invariant holds afterwards. |
| `Pages.PagesStore.UpdatePage` | app/hooks/usePages.ts:73-121 | Sends a POST iff the id is temporary and a PUT otherwise. A failed response changes nothing. On success, pages with that id become the returned record and the length is kept; an undefined list becomes that record. The selection moves to the returned id only for a new page. The invariant is kept when the returned id matches. |
| `Pages.PagesStore.DeletePage` | app/hooks/usePages.ts:124-137 | Without confirmation nothing changes and nothing is sent. With it, a DELETE is sent. Unless the fetch rejects, every page with that id is removed and the rest keep their order. A deleted selection moves to the first remaining page, or to null. A valid selection stays valid, and deleting the selected page leaves a valid selection from any state, including one whose selection dangled. |
| `SidebarView.RowLabel` | app/components/Sidebar/Sidebar.tsx:75 | A row shows the page title, or 「無題のページ」 when the title is empty. |
| `SidebarView.Sidebar.constructor` | app/components/Sidebar/Sidebar.tsx:26 | Edit mode starts off. |
| `SidebarView.Sidebar.HighlightMatchesCurrentPage` | app/components/Sidebar/Sidebar.tsx:69-82 | A highlighted row never shows a delete button, and carries the id of the page the editor shows. Out of edit mode, the row holding the shown page is highlighted. |
| `SidebarView.Sidebar.HandleEdit` | app/components/Sidebar/Sidebar.tsx:100 | The edit button turns edit mode on. |
| `SidebarView.Sidebar.HandleDone` | app/components/Sidebar/Sidebar.tsx:28-30 | Leaves edit mode and changes nothing else. |
| `SidebarView.Sidebar.HandleNewPage` | app/components/Sidebar/Sidebar.tsx:32-35 | Makes exactly one `createPage` call (one page appended and selected), then leaves edit mode. It works from any store state, and the store's selection invariant holds afterwards. |
| `SidebarView.Sidebar.HandleDelete` | app/components/Sidebar/Sidebar.tsx:37-40 | Forwards the row's id to `deletePage`. The selection changes only as the deletion changes it, because the row's select handler does not fire, and edit mode stays on. It works from any store state. A valid selection stays valid, and deleting the selected row's page leaves a valid selection. |
| `SidebarView.Sidebar.HandleSelectPage` | app/components/Sidebar/Sidebar.tsx:42-46 | Selects the clicked row's page only when edit mode is off. In edit mode it is a no-op. Out of edit mode the selection is valid afterwards from any state, so a click repairs a dangling selection (`RowClickRepairsSelection`). In edit mode a valid selection stays valid. |
| `PageView.HandleSave` | app/page.tsx:18-22 | When a page is shown, `{title, body}` is sent for its id, as a POST for a temporary id and a PUT otherwise. A successful answer replaces every page with that id, and for a temporary id the selection moves to the server's id; a failed answer changes neither the list nor the selection. When no page is shown nothing happens. The invariant is kept unless a PUT comes back with a different id. |

## Left out

- HTTP, JSON and zod parsing of API records: each request's outcome is a parameter (`None` for any failure). Requests are recorded in a ghost log rather than performed.
- Timestamp parsing and the numeric-to-string id conversion done when records arrive: records are taken as already converted.
- `crypto.randomUUID()` and `Date.now()`: the uuid and the two clock readings are parameters of `CreatePage`.
- `window.confirm`: a boolean parameter of `DeletePage`.
- `console.error` logging: it has no effect on state.
- Asynchrony: each operation is atomic. Interleavings of in-flight requests are not modelled, and neither is the stale read of `pages` that `deletePage`'s closure can make. `ReconcileKeepsSelection` names the cases in which an answer to `updatePage` leaves the selection dangling: a temporary page no longer listed when its POST returns, or a PUT for the selected page answered with a different id.
- The `onSave` callback: the hook records its calls in a ghost log. The page-level forwarding is modelled separately by `PageView.HandleSave`, not as a call made from inside the hook.
- Re-rendering after a save: the editor's new props reach it only through an explicit `ReceiveProps` call. React's scheduling and the `key`-driven remount on page change are not modelled.
- String length: JavaScript counts UTF-16 code units. The model uses the length of a `seq<char>`.
- `PageEditorView.PageEditor.OnChangeTitle`, `PageEditorView.PageEditor.OnChangeContent`: callable in either mode, although the input exists only in edit mode.
- `Pages.PagesStore.Load`: the GET runs concurrently with the user's actions, and the model sees only the order in which the effects land. `LateLoadScenario` shows one order: a page is created while the GET is pending, and then the GET fails. The temporary page is lost and the selection names nothing listed, until the next `createPage` selects a listed page again. The invariant is therefore promised only when nothing was selected before the load or the load brought a page.
- localStorage helpers (app/utils/storage.ts), the button components and the JSX layout are not part of this model.

=== FILE: app_page.dfy ===
/**
  The page component: it owns the page collection and passes the editor's
  `onSave` on to `updatePage` for the page currently shown.
*/
module PageView {

  import opened Optional
  import opened PageTypes
  import opened Pages

  /**
    The page's `handleSave`, the editor's `onSave`: when a page is shown,
    sends `{title, body}` for that page's id and reconciles the answer as
    `updatePage` does; otherwise does nothing.
  */
  method HandleSave(store: PagesStore, title: string, body: string, response: Option<Page>)
    requires store.Valid()
    modifies store
    ensures old(store.Current()).Found? ==>
              var id := old(store.Current()).page.id;
              store.requests == old(store.requests)
                                + [if IsNewPage(id) then Post(PageInput(Some(title), Some(body)))
                                   else Put(id, PageInput(Some(title), Some(body)))]
    ensures !old(store.Current()).Found? ==>
              store.pages == old(store.pages) && store.currentPageId == old(store.currentPageId)
              && store.requests == old(store.requests)
    ensures old(store.Current()).Found? && response.Some? ==>
              var id := old(store.Current()).page.id;
              && store.pages == Some(ReplaceById(old(store.pages).value, id, response.value))
              && store.currentPageId == if IsNewPage(id) then Some(response.value.id) else old(store.currentPageId)
    ensures old(store.Current()).Found? && response.None? ==>
              store.pages == old(store.pages) && store.currentPageId == old(store.currentPageId)
    ensures store.Valid()
            || (old(store.Current()).Found? && response.Some? && !IsNewPage(old(store.Current()).page.id)
                && response.value.id != old(store.Current()).page.id)
  {
    var current := store.Current();
    if current.Found? {
      store.UpdatePage(current.page.id, PageInput(Some(title), Some(body)), response);
    }
  }
}

=== FILE: field_validation.dfy ===
/**
  The second set of validators: each returns either no error or an error
  naming its field, and `validatePage` gathers the errors of both fields.
  They accept the same lengths as the schemas in `SchemaValidation` but
  carry their own messages.
*/
module FieldValidation {

  import opened Optional
  import SchemaValidation

  datatype Field = Title | Content

  /** `{field, message}` */
  datatype ValidationError = ValidationError(field: Field, message: string)

  /** `{isValid, errors}` */
  datatype ValidationResult = ValidationResult(isValid: bool, errors: seq<ValidationError>)

  const TitleRequiredMessage := "タイトルを入力してください"
  const TitleTooLongMessage := "タイトルは50文字以内で入力してください"
  const ContentTooShortMessage := "本文は10文字以上入力してください"
  const ContentTooLongMessage := "本文は2000文字以内で入力してください"

  /** `validateTitle(title)`: `null` (None) exactly for titles of 1 to 50 characters. */
  function ValidateTitle(title: string): (r: Option<ValidationError>)
    ensures r.None? <==> 1 <= |title| <= 50
    ensures r.Some? ==> r.value.field == Title
    ensures |title| == 0 ==> r == Some(ValidationError(Title, TitleRequiredMessage))
    ensures |title| > 50 ==> r == Some(ValidationError(Title, TitleTooLongMessage))
  {
    if |title| == 0 then
      Some(ValidationError(Title, TitleRequiredMessage))
    else if |title| > 50 then
      Some(ValidationError(Title, TitleTooLongMessage))
    else
      None
  }

  /** `validateContent(content)`: `null` (None) exactly for bodies of 10 to 2000 characters. */
  function ValidateContent(content: string): (r: Option<ValidationError>)
    ensures r.None? <==> 10 <= |content| <= 2000
    ensures r.Some? ==> r.value.field == Content
    ensures |content| < 10 ==> r.Some? && r.value.message == ContentTooShortMessage
    ensures |content| > 2000 ==> r.Some? && r.value.message == ContentTooLongMessage
  {
    if |content| < 10 then
      Some(ValidationError(Content, ContentTooShortMessage))
    else if |content| > 2000 then
      Some(ValidationError(Content, ContentTooLongMessage))
    else
      None
  }

  /**
    `validatePage(title, content)`: pushes the title's error, then the
    content's error, onto an initially empty list. The page is valid exactly
    when no error was pushed, which is exactly when both fields are valid;
    there are at most two errors, a title error always comes first, and the
    list holds precisely the errors the two field validators report.
  */
  method ValidatePage(title: string, content: string) returns (result: ValidationResult)
    ensures result.isValid <==> result.errors == []
    ensures result.isValid <==> ValidateTitle(title).None? && ValidateContent(content).None?
    ensures |result.errors| <= 2
    ensures forall i, j :: 0 <= i < j < |result.errors| ==>
              result.errors[i].field == Title && result.errors[j].field == Content
    ensures forall e :: e in result.errors <==> ValidateTitle(title) == Some(e) || ValidateContent(content) == Some(e)
  {
    var errors: seq<ValidationError> := [];

    var titleError := ValidateTitle(title);
    if titleError.Some? {
      errors := errors + [titleError.value];
    }

    var contentError := ValidateContent(content);
    if contentError.Some? {
      errors := errors + [contentError.value];
    }

    result := ValidationResult(|errors| == 0, errors);
  }

  /**
    Both sets of validators accept exactly the same titles and bodies (1 to
    50 and 10 to 2000 characters); only their messages differ.
  */
  lemma AgreesWithSchemas(value: string)
    ensures ValidateTitle(value).None? <==> SchemaValidation.ValidateTitle(value).Success?
    ensures ValidateContent(value).None? <==> SchemaValidation.ValidateBody(value).Success?
    ensures ValidateTitle(value).Some? ==> ValidateTitle(value).value.message != SchemaValidation.ValidateTitle(value).issues[0]
  {
  }
}

=== FILE: optional.dfy ===
/** An optional value: JavaScript's `undefined`/`null` on one side, a value on the other. */
module Optional {

  datatype Option<+T> = None | Some(value: T)
}

=== FILE: page.dfy ===
/** The page record shared by the collection manager, the editor and the sidebar. */
module PageTypes {

  import opened Optional

  /** One page as the front end holds it: a string id and epoch timestamps. */
  datatype Page = Page(id: string, title: string, body: string, createdAt: int, updatedAt: int)

  /** The partial update sent to the content API; an absent field is not sent. */
  datatype PageInput = PageInput(title: Option<string>, body: Option<string>)

  /** A request the collection manager sends to the content API. */
  datatype Request =
    | GetAll                              // GET /content
    | Post(input: PageInput)              // POST /content
    | Put(id: string, input: PageInput)   // PUT /content/{id}
    | Delete(id: string)                  // DELETE /content/{id}
}

=== FILE: page_editor.dfy ===
/**
  The page editor component: one view/edit flag per field on top of the
  editor hook. Starting an edit resets the draft to the committed value and
  clears the error; cancelling reverts the draft and clears the error;
  saving leaves edit mode only when the hook's save succeeded. Title
  handlers never touch the body's draft, error or flag, and vice versa.
*/
module PageEditorView {

  import opened Optional
  import opened SchemaValidation
  import opened PageEditorHook

  const TitlePlaceholder := "タイトルを入力"
  const BodyPlaceholder := "本文を入力（10文字以上）"

  class PageEditor {
    /** The hook instance this component renders. */
    const hook: EditorState

    var isTitleEdit: bool
    var isContentEdit: bool

    ghost predicate Valid()
      reads this, hook
    {
      hook.Valid()
    }

    /** First render with the page's committed title and body: both fields in view mode. */
    constructor(title: string, body: string)
      ensures Valid() && fresh(hook)
      ensures !isTitleEdit && !isContentEdit
      ensures hook.initialTitle == title && hook.initialBody == body
      ensures hook.title == title && hook.body == body
      ensures hook.titleError == None && hook.bodyError == None
      ensures hook.saves == []
    {
      hook := new EditorState(title, body);
      isTitleEdit := false;
      isContentEdit := false;
    }

    /** `onStartTitleEdit`: draft := committed title, no error, edit mode on. */
    method OnStartTitleEdit()
      requires Valid()
      modifies this, hook
      ensures Valid()
      ensures isTitleEdit && hook.title == hook.initialTitle && hook.titleError == None
      ensures isContentEdit == old(isContentEdit)
      ensures hook.body == old(hook.body) && hook.bodyError == old(hook.bodyError)
      ensures hook.initialTitle == old(hook.initialTitle) && hook.initialBody == old(hook.initialBody)
      ensures hook.saves == old(hook.saves)
    {
      hook.SetTitle(hook.initialTitle);
      hook.ClearTitleError();
      isTitleEdit := true;
    }

    /** `onStartContentEdit`: draft := committed body, no error, edit mode on. */
    method OnStartContentEdit()
      requires Valid()
      modifies this, hook
      ensures Valid()
      ensures isContentEdit && hook.body == hook.initialBody && hook.bodyError == None
      ensures isTitleEdit == old(isTitleEdit)
      ensures hook.title == old(hook.title) && hook.titleError == old(hook.titleError)
      ensures hook.initialTitle == old(hook.initialTitle) && hook.initialBody == old(hook.initialBody)
      ensures hook.saves == old(hook.saves)
    {
      hook.SetBody(hook.initialBody);
      hook.ClearBodyError();
      isContentEdit := true;
    }

    /** The title input's `onChange`: replaces the draft only. */
    method OnChangeTitle(value: string)
      requires Valid()
      modifies hook`title
      ensures Valid()
      ensures hook.title == value
    {
      hook.SetTitle(value);
    }

    /** The body textarea's `onChange`: replaces the draft only. */
    method OnChangeContent(value: string)
      requires Valid()
      modifies hook`body
      ensures Valid()
      ensures hook.body == value
    {
      hook.SetBody(value);
    }

    /** `onCancelTitle`: draft := committed title, no error, edit mode off, no `onSave` call. */
    method OnCancelTitle()
      requires Valid()
      modifies this, hook
      ensures Valid()
      ensures !isTitleEdit && hook.title == hook.initialTitle && hook.titleError == None
      ensures isContentEdit == old(isContentEdit)
      ensures hook.body == old(hook.body) && hook.bodyError == old(hook.bodyError)
      ensures hook.initialTitle == old(hook.initialTitle) && hook.initialBody == old(hook.initialBody)
      ensures hook.saves == old(hook.saves)
    {
      hook.SetTitle(hook.initialTitle);
      hook.ClearTitleError();
      isTitleEdit := false;
    }

    /** `onCancelContent`: draft := committed body, no error, edit mode off, no `onSave` call. */
    method OnCancelContent()
      requires Valid()
      modifies this, hook
      ensures Valid()
      ensures !isContentEdit && hook.body == hook.initialBody && hook.bodyError == None
      ensures isTitleEdit == old(isTitleEdit)
      ensures hook.title == old(hook.title) && hook.titleError == old(hook.titleError)
      ensures hook.initialTitle == old(hook.initialTitle) && hook.initialBody == old(hook.initialBody)
      ensures hook.saves == old(hook.saves)
    {
      hook.SetBody(hook.initialBody);
      hook.ClearBodyError();
      isContentEdit := false;
    }

    /**
      `onSaveTitle`: leaves title edit mode exactly when the draft title is
      valid, in which case `onSave` got (draft title, committed body); an
      invalid draft keeps edit mode and shows the schema's message.
    */
    method OnSaveTitle()
      requires Valid()
      modifies this, hook
      ensures Valid()
      ensures TitleAccepted(hook.title) ==>
                !isTitleEdit && hook.titleError == None
                && hook.saves == old(hook.saves) + [(hook.title, hook.initialBody)]
      ensures !TitleAccepted(hook.title) ==>
                isTitleEdit == old(isTitleEdit) && hook.titleError == Some(FirstIssue(TitleSchema, hook.title))
                && hook.saves == old(hook.saves)
      ensures isContentEdit == old(isContentEdit)
      ensures hook.title == old(hook.title) && hook.body == old(hook.body) && hook.bodyError == old(hook.bodyError)
      ensures hook.initialTitle == old(hook.initialTitle) && hook.initialBody == old(hook.initialBody)
    {
      var ok := hook.HandleSaveTitle();
      if ok {
        isTitleEdit := false;
      }
    }

    /**
      `onSaveContent`: leaves body edit mode exactly when the draft body is
      valid, in which case `onSave` got (committed title, draft body); an
      invalid draft keeps edit mode and shows the schema's message.
    */
    method OnSaveContent()
      requires Valid()
      modifies this, hook
      ensures Valid()
      ensures BodyAccepted(hook.body) ==>
                !isContentEdit && hook.bodyError == None
                && hook.saves == old(hook.saves) + [(hook.initialTitle, hook.body)]
      ensures !BodyAccepted(hook.body) ==>
                isContentEdit == old(isContentEdit) && hook.bodyError == Some(FirstIssue(BodySchema, hook.body))
                && hook.saves == old(hook.saves)
      ensures isTitleEdit == old(isTitleEdit)
      ensures hook.title == old(hook.title) && hook.body == old(hook.body) && hook.titleError == old(hook.titleError)
      ensures hook.initialTitle == old(hook.initialTitle) && hook.initialBody == old(hook.initialBody)
    {
      var ok := hook.HandleSaveBody();
      if ok {
        isContentEdit := false;
      }
    }

    /**
      The heading text in view mode: the committed title (never the draft),
      or the placeholder when the committed title is empty.
    */
    function TitleHeading(): (text: string)
      reads this, hook
      ensures text == hook.initialTitle || text == TitlePlaceholder
      ensures text == TitlePlaceholder <==> hook.initialTitle == "" || hook.initialTitle == TitlePlaceholder
    {
      if hook.initialTitle != "" then hook.initialTitle else TitlePlaceholder
    }

    /**
      The body text in view mode: the committed body (never the draft), or
      the placeholder when the committed body is empty.
    */
    function BodyPreview(): (text: string)
      reads this, hook
      ensures text == hook.initialBody || text == BodyPlaceholder
      ensures text == BodyPlaceholder <==> hook.initialBody == "" || hook.initialBody == BodyPlaceholder
    {
      if hook.initialBody != "" then hook.initialBody else BodyPlaceholder
    }
  }

  /**
    Starting a title edit, typing, then cancelling ends where it began: the
    draft equals the committed title, there is no error, the field is in
    view mode and `onSave` was never called.
  */
  method StartTypeCancelTitle(editor: PageEditor, typed: string)
    requires editor.Valid()
    modifies editor, editor.hook
    ensures editor.Valid()
    ensures !editor.isTitleEdit && editor.hook.title == editor.hook.initialTitle && editor.hook.titleError == None
    ensures editor.hook.initialTitle == old(editor.hook.initialTitle)
    ensures editor.hook.saves == old(editor.hook.saves)
  {
    editor.OnStartTitleEdit();
    editor.OnChangeTitle(typed);
    editor.OnCancelTitle();
  }
}

=== FILE: page_editor_hook.dfy ===
/**
  The state behind the page-editor hook: a draft value and an optional error
  for each of the two fields, the committed values the editor was given,
  and the calls made to the `onSave` callback. Saving a field validates its
  draft against that field's schema; a valid draft is handed to `onSave`
  together with the OTHER field's committed value, never its draft.
*/
module PageEditorHook {

  import opened Optional
  import opened SchemaValidation

  /** A title draft the title schema accepts. */
  predicate TitleAccepted(value: string) {
    Accepts(TitleSchema, value)
  }

  /** A body draft the body schema accepts. */
  predicate BodyAccepted(value: string) {
    Accepts(BodySchema, value)
  }

  /** An error cell holds nothing or one of the two messages of its schema. */
  predicate IsSchemaError(error: Option<string>, schema: StringSchema) {
    error.Some? ==> error.value == schema.minMessage || error.value == schema.maxMessage
  }

  class EditorState {
    /** The committed values: the props the editor is rendered with. */
    var initialTitle: string
    var initialBody: string

    /** The drafts and their errors (`useState` cells). */
    var title: string
    var body: string
    var titleError: Option<string>
    var bodyError: Option<string>

    /** Every `(title, body)` pair passed to `onSave`, oldest first. */
    ghost var saves: seq<(string, string)>

    /**
      Each error is one of its schema's messages, and every pair handed to
      `onSave` has at least one field its schema accepts.
    */
    ghost predicate Valid()
      reads this
    {
      && IsSchemaError(titleError, TitleSchema)
      && IsSchemaError(bodyError, BodySchema)
      && forall k :: 0 <= k < |saves| ==> TitleAccepted(saves[k].0) || BodyAccepted(saves[k].1)
    }

    /** `usePageEditor({initialTitle = "", initialBody = "", onSave})` on first render. */
    constructor(initialTitle: string := "", initialBody: string := "")
      ensures Valid()
      ensures this.initialTitle == initialTitle && this.initialBody == initialBody
      ensures title == initialTitle && body == initialBody
      ensures titleError == None && bodyError == None
      ensures saves == []
    {
      this.initialTitle := initialTitle;
      this.initialBody := initialBody;
      title := initialTitle;
      body := initialBody;
      titleError := None;
      bodyError := None;
      saves := [];
    }

    /**
      A later render with new props: the closures see the new committed
      values, while the `useState` cells keep their contents.
    */
    method ReceiveProps(newTitle: string, newBody: string)
      requires Valid()
      modifies this
      ensures Valid()
      ensures initialTitle == newTitle && initialBody == newBody
      ensures title == old(title) && body == old(body)
      ensures titleError == old(titleError) && bodyError == old(bodyError)
      ensures saves == old(saves)
    {
      initialTitle, initialBody := newTitle, newBody;
    }

    /** `setTitle(value)`: replaces the draft; neither validates nor clears the error. */
    method SetTitle(value: string)
      requires Valid()
      modifies this`title
      ensures Valid()
      ensures title == value
    {
      title := value;
    }

    /** `setBody(value)`: replaces the draft; neither validates nor clears the error. */
    method SetBody(value: string)
      requires Valid()
      modifies this`body
      ensures Valid()
      ensures body == value
    {
      body := value;
    }

    /** The hook's internal `validateTitle`: records the first issue, or clears the error. */
    method ValidateTitleDraft(value: string) returns (ok: bool)
      requires Valid()
      modifies this`titleError
      ensures Valid()
      ensures ok <==> TitleAccepted(value)
      ensures ok ==> titleError == None
      ensures !ok ==> titleError == Some(FirstIssue(TitleSchema, value))
    {
      var result := SafeParse(TitleSchema, value);
      if result.Failure? {
        SingleIssue(TitleSchema, value);
        titleError := Some(result.issues[0]);
        return false;
      }
      titleError := None;
      return true;
    }

    /** The hook's internal `validateBody`: records the first issue, or clears the error. */
    method ValidateBodyDraft(value: string) returns (ok: bool)
      requires Valid()
      modifies this`bodyError
      ensures Valid()
      ensures ok <==> BodyAccepted(value)
      ensures ok ==> bodyError == None
      ensures !ok ==> bodyError == Some(FirstIssue(BodySchema, value))
    {
      var result := SafeParse(BodySchema, value);
      if result.Failure? {
        SingleIssue(BodySchema, value);
        bodyError := Some(result.issues[0]);
        return false;
      }
      bodyError := None;
      return true;
    }

    /**
      `handleSaveTitle()`: succeeds exactly when the title draft passes the
      title schema. On success the error is cleared and `onSave` is called
      once with the draft title and the COMMITTED body; on failure the error
      is the schema's message and `onSave` is not called. Only `titleError`
      (and the log of calls) changes.
    */
    method HandleSaveTitle() returns (ok: bool)
      requires Valid()
      modifies this
      ensures Valid()
      ensures ok <==> TitleAccepted(title)
      ensures ok ==> titleError == None && saves == old(saves) + [(title, initialBody)]
      ensures !ok ==> titleError == Some(FirstIssue(TitleSchema, title)) && saves == old(saves)
      ensures title == old(title) && body == old(body) && bodyError == old(bodyError)
      ensures initialTitle == old(initialTitle) && initialBody == old(initialBody)
    {
      ok := ValidateTitleDraft(title);
      if ok {
        saves := saves + [(title, initialBody)];
      }
    }

    /**
      `handleSaveBody()`: succeeds exactly when the body draft passes the
      body schema. On success the error is cleared and `onSave` is called
      once with the COMMITTED title and the draft body; on failure the error
      is the schema's message and `onSave` is not called. Only `bodyError`
      (and the log of calls) changes.
    */
    method HandleSaveBody() returns (ok: bool)
      requires Valid()
      modifies this
      ensures Valid()
      ensures ok <==> BodyAccepted(body)
      ensures ok ==> bodyError == None && saves == old(saves) + [(initialTitle, body)]
      ensures !ok ==> bodyError == Some(FirstIssue(BodySchema, body)) && saves == old(saves)
      ensures title == old(title) && body == old(body) && titleError == old(titleError)
      ensures initialTitle == old(initialTitle) && initialBody == old(initialBody)
    {
      ok := ValidateBodyDraft(body);
      if ok {
        saves := saves + [(initialTitle, body)];
      }
    }

    /** `clearTitleError()`: resets the title error and nothing else. */
    method ClearTitleError()
      requires Valid()
      modifies this`titleError
      ensures Valid()
      ensures titleError == None
    {
      titleError := None;
    }

    /** `clearBodyError()`: resets the body error and nothing else. */
    method ClearBodyError()
      requires Valid()
      modifies this`bodyError
      ensures Valid()
      ensures bodyError == None
    {
      bodyError := None;
    }
  }

  /** The hook's own test cases, restated as assertions that follow from the contracts above. */
  method HookScenarios()
  {
    var editor := new EditorState();
    editor.SetTitle("");
    var ok := editor.HandleSaveTitle();
    assert !ok && editor.titleError == Some(TitleMinMessage) && editor.saves == [];

    editor.SetTitle("Valid Title");
    ok := editor.HandleSaveTitle();
    assert ok && editor.titleError == None && editor.saves == [("Valid Title", "")];

    editor := new EditorState();
    editor.SetBody("short");
    ok := editor.HandleSaveBody();
    assert !ok && editor.bodyError == Some(BodyMinMessage) && editor.saves == [];
  }
}

=== FILE: pages.dfy ===
/**
  The page collection: the list of pages (undefined until the first load)
  and the selected page id. Creating a page appends a client-side page with
  a temporary id; saving a page posts it when its id is temporary and puts
  it otherwise, then puts the server's record in its place; deleting a page
  drops it and, when it was selected, selects the first remaining page.
  Answers from the content API, the confirmation dialog, the clock and the
  UUID generator are parameters of the operations.
*/
module Pages {

  import opened Optional
  import opened PageTypes

  /** The prefix of every id created on the client before the server confirms it. */
  const TempIdPrefix := "client-temp-"

  /** `id.startsWith("client-temp-")` */
  predicate IsNewPage(id: string) {
    |TempIdPrefix| <= |id| && id[..|TempIdPrefix|] == TempIdPrefix
  }

  /** The temporary id built from a fresh UUID. */
  function TempId(uuid: string): (id: string)
    ensures IsNewPage(id)
    ensures |id| == |TempIdPrefix| + |uuid| && id[|TempIdPrefix|..] == uuid
  {
    TempIdPrefix + uuid
  }

  /** Some page in the list carries this id. */
  predicate Listed(pages: seq<Page>, id: string) {
    exists k :: 0 <= k < |pages| && pages[k].id == id
  }

  /** A non-empty list carries an id exactly when its head or its tail does. */
  lemma ListedTail(pages: seq<Page>, id: string)
    requires pages != []
    ensures Listed(pages, id) <==> pages[0].id == id || Listed(pages[1..], id)
  {
    if Listed(pages[1..], id) {
      var k :| 0 <= k < |pages[1..]| && pages[1..][k].id == id;
      assert pages[k + 1].id == id;
    }
    if Listed(pages, id) && pages[0].id != id {
      var k :| 0 <= k < |pages| && pages[k].id == id;
      assert pages[1..][k - 1].id == id;
    }
  }

  // ---------------------------------------------------------------------------
  // The list operations the collection is updated with
  // ---------------------------------------------------------------------------

  /** `pages.find(page => page.id === id)` */
  function FindById(pages: seq<Page>, id: string): (r: Option<Page>)
    ensures r.Some? <==> Listed(pages, id)
    ensures r.Some? ==> r.value in pages && r.value.id == id
  {
    if pages == [] then None
    else if pages[0].id == id then Some(pages[0])
    else
      ListedTail(pages, id);
      FindById(pages[1..], id)
  }

  /** `find` answers the FIRST page carrying the id. */
  lemma {:induction false} FindByIdIsFirst(pages: seq<Page>, id: string, k: nat)
    requires k < |pages| && pages[k].id == id
    requires forall j :: 0 <= j < k ==> pages[j].id != id
    ensures FindById(pages, id) == Some(pages[k])
  {
    if k > 0 {
      FindByIdIsFirst(pages[1..], id, k - 1);
    }
  }

  /** `pages.map(page => page.id === id ? replacement : page)` */
  function ReplaceById(pages: seq<Page>, id: string, replacement: Page): (r: seq<Page>)
    ensures |r| == |pages|
    ensures forall k :: 0 <= k < |pages| && pages[k].id == id ==> r[k] == replacement
    ensures forall k :: 0 <= k < |pages| && pages[k].id != id ==> r[k] == pages[k]
  {
    if pages == [] then []
    else [if pages[0].id == id then replacement else pages[0]] + ReplaceById(pages[1..], id, replacement)
  }

  /** Replacing changes nothing when no page carries the id. */
  lemma ReplaceUnlisted(pages: seq<Page>, id: string, replacement: Page)
    requires !Listed(pages, id)
    ensures ReplaceById(pages, id, replacement) == pages
  {
    var r := ReplaceById(pages, id, replacement);
    forall k | 0 <= k < |pages| ensures r[k] == pages[k] {
      assert pages[k].id != id;
    }
  }

  /** After replacing a listed id, the replacement is listed, and so is every other id that was. */
  lemma ReplaceListed(pages: seq<Page>, id: string, replacement: Page, other: string)
    requires Listed(pages, id)
    ensures Listed(ReplaceById(pages, id, replacement), replacement.id)
    ensures other != id && Listed(pages, other) ==> Listed(ReplaceById(pages, id, replacement), other)
  {
    var r := ReplaceById(pages, id, replacement);
    var k :| 0 <= k < |pages| && pages[k].id == id;
    assert r[k] == replacement;
    if other != id && Listed(pages, other) {
      var j :| 0 <= j < |pages| && pages[j].id == other;
      assert r[j] == pages[j];
    }
  }

  /** `pages.filter(page => page.id !== id)` */
  function RemoveById(pages: seq<Page>, id: string): (r: seq<Page>)
    ensures |r| <= |pages|
    ensures forall p :: p in r <==> p in pages && p.id != id
    ensures !Listed(r, id)
  {
    if pages == [] then []
    else if pages[0].id == id then RemoveById(pages[1..], id)
    else [pages[0]] + RemoveById(pages[1..], id)
  }

  /** The filter keeps the order of the remaining pages: it distributes over concatenation. */
  lemma {:induction false} RemoveByIdAppend(a: seq<Page>, b: seq<Page>, id: string)
    ensures RemoveById(a + b, id) == RemoveById(a, id) + RemoveById(b, id)
  {
    if a == [] {
      assert a + b == b;
    } else {
      assert (a + b)[1..] == a[1..] + b;
      RemoveByIdAppend(a[1..], b, id);
    }
  }

  /** Filtering an id no page carries keeps the list as it is. */
  lemma {:induction false} RemoveUnlisted(pages: seq<Page>, id: string)
    requires !Listed(pages, id)
    ensures RemoveById(pages, id) == pages
  {
    if pages != [] {
      ListedTail(pages, id);
      RemoveUnlisted(pages[1..], id);
    }
  }

  /** Filtering a listed id makes the list strictly shorter. */
  lemma {:induction false} RemoveListedShrinks(pages: seq<Page>, id: string)
    requires Listed(pages, id)
    ensures |RemoveById(pages, id)| < |pages|
  {
    if pages[0].id != id {
      ListedTail(pages, id);
      RemoveListedShrinks(pages[1..], id);
    }
  }

  /** Every other id that was listed stays listed after the filter. */
  lemma RemoveKeepsOthers(pages: seq<Page>, id: string, other: string)
    requires other != id && Listed(pages, other)
    ensures Listed(RemoveById(pages, id), other)
  {
    var r := RemoveById(pages, id);
    var k :| 0 <= k < |pages| && pages[k].id == other;
    assert pages[k] in r;
    var j :| 0 <= j < |r| && r[j] == pages[k];
  }

  // ---------------------------------------------------------------------------
  // The collection state
  // ---------------------------------------------------------------------------

  /** What `currentPage` evaluates to: undefined, null, or a page. */
  datatype CurrentPage = NotLoaded | NoPage | Found(page: Page)

  /**
    The selection invariant: before loading there is no selection; after
    loading the selection is null or names a listed page, and a non-empty
    list always has a selection.
  */
  predicate SelectionValid(pages: Option<seq<Page>>, currentPageId: Option<string>) {
    match pages
    case None => currentPageId.None?
    case Some(ps) =>
      && (currentPageId.Some? ==> Listed(ps, currentPageId.value))
      && (ps != [] ==> currentPageId.Some?)
  }

  /**
    When reconciling the server's answer keeps the selection valid: a
    temporary id is still listed (or nothing was loaded), and an existing
    id is replaced by a record with the same id when it is the selected one.
  */
  predicate ReconcileKeepsSelection(pages: Option<seq<Page>>, currentPageId: Option<string>, id: string, returned: Page) {
    if IsNewPage(id) then pages.None? || Listed(pages.value, id)
    else pages.Some? && (currentPageId == Some(id) ==> returned.id == id)
  }

  class PagesStore {
    var pages: Option<seq<Page>>
    var currentPageId: Option<string>

    /** Every request sent to the content API, oldest first. */
    ghost var requests: seq<Request>

    predicate Valid()
      reads this
    {
      SelectionValid(pages, currentPageId)
    }

    /** `usePages()` on first render: nothing loaded, nothing selected. */
    constructor()
      ensures Valid()
      ensures pages == None && currentPageId == None && requests == []
    {
      pages := None;
      currentPageId := None;
      requests := [];
    }

    /**
      The mount effect: `fetched` is the parsed list, or None when the fetch
      failed, the status was not ok or the body did not parse. Success stores
      the list and selects its first page, if any; failure stores the empty
      list. Either way the list is defined afterwards, and whatever was in it
      before (a page created while the GET was pending) is overwritten. An
      empty or failed load leaves the selection as it was, so a selection
      made before the answer arrived can then name no listed page.
    */
    method Load(fetched: Option<seq<Page>>)
      modifies this
      ensures requests == old(requests) + [GetAll]
      ensures pages == Some(if fetched.Some? then fetched.value else [])
      ensures currentPageId == if fetched.Some? && fetched.value != [] then Some(fetched.value[0].id)
                               else old(currentPageId)
      ensures old(currentPageId).None? || (fetched.Some? && fetched.value != []) ==> Valid()
    {
      requests := requests + [GetAll];
      if fetched.Some? {
        var loaded := fetched.value;
        pages := Some(loaded);
        if |loaded| > 0 {
          currentPageId := Some(loaded[0].id);
          assert Listed(loaded, loaded[0].id);
        }
      } else {
        pages := Some([]);
      }
    }

    /** `currentPage`: undefined before loading, else the first page with the selected id, else null. */
    function Current(): (r: CurrentPage)
      reads this
      ensures r.NotLoaded? <==> pages.None?
      ensures r.Found? ==> currentPageId.Some? && r.page in pages.value && r.page.id == currentPageId.value
      ensures r.NoPage? ==> currentPageId.None? || !Listed(pages.value, currentPageId.value)
      ensures Valid() && pages.Some? && currentPageId.Some? ==> r.Found?
    {
      if pages.None? then NotLoaded
      else if currentPageId.None? then NoPage
      else match FindById(pages.value, currentPageId.value)
        case Some(p) => Found(p)
        case None => NoPage
    }

    /** `setCurrentPageId(id)`; the selection stays valid when the id is listed. */
    method SetCurrentPageId(id: string)
      modifies this`currentPageId
      ensures currentPageId == Some(id)
      ensures pages.Some? && Listed(pages.value, id) ==> Valid()
    {
      currentPageId := Some(id);
    }

    /**
      `createPage()`: appends a blank page with id "client-temp-" + uuid
      (no request is sent) and selects it. Earlier pages stay as they were,
      in order; an unloaded list becomes the one new page.
    */
    method CreatePage(uuid: string, createdAt: int, updatedAt: int)
      modifies this
      ensures Valid()
      ensures var newPage := Page(TempId(uuid), "", "", createdAt, updatedAt);
              && pages == Some((if old(pages).Some? then old(pages).value else []) + [newPage])
              && currentPageId == Some(newPage.id)
      ensures requests == old(requests)
    {
      var newPage := Page(TempId(uuid), "", "", createdAt, updatedAt);
      var next := (if pages.Some? then pages.value else []) + [newPage];
      pages := Some(next);
      currentPageId := Some(newPage.id);
      assert next[|next| - 1] == newPage;
    }

    /**
      `updatePage(id, updates)`: POSTs `updates` when the id is temporary and
      PUTs them to the page otherwise. `response` is the parsed record, or
      None when the request failed; a failure changes nothing. On success
      every page with that id becomes the returned record (an unloaded list
      becomes that one record), and a new page's selection follows the
      server's id.
    */
    method UpdatePage(id: string, updates: PageInput, response: Option<Page>)
      requires Valid()
      modifies this
      ensures requests == old(requests) + [if IsNewPage(id) then Post(updates) else Put(id, updates)]
      ensures response.None? ==> pages == old(pages) && currentPageId == old(currentPageId)
      ensures response.Some? ==>
                pages == Some(if old(pages).None? then [response.value]
                              else ReplaceById(old(pages).value, id, response.value))
      ensures response.Some? ==>
                currentPageId == if IsNewPage(id) then Some(response.value.id) else old(currentPageId)
      ensures response.None? || ReconcileKeepsSelection(old(pages), old(currentPageId), id, response.value) ==> Valid()
    {
      var isNewPage := IsNewPage(id);
      if isNewPage {
        requests := requests + [Post(updates)];
      } else {
        requests := requests + [Put(id, updates)];
      }
      if response.None? {
        return;
      }
      var processed := response.value;
      ghost var keeps := ReconcileKeepsSelection(pages, currentPageId, id, processed);
      if pages.None? {
        pages := Some([processed]);
        assert [processed][0].id == processed.id;
      } else {
        var old_ := pages.value;
        pages := Some(ReplaceById(old_, id, processed));
        if keeps {
          if isNewPage {
            ReplaceListed(old_, id, processed, id);
          } else if currentPageId.Some? && currentPageId.value != id {
            var k :| 0 <= k < |old_| && old_[k].id == currentPageId.value;
            assert pages.value[k] == old_[k];
          } else if currentPageId.Some? {
            ReplaceListed(old_, id, processed, id);
          }
        }
      }
      if isNewPage {
        currentPageId := Some(processed.id);
      }
    }

    /**
      `deletePage(id)`: without confirmation nothing happens. With it, the
      DELETE request is sent; unless the request itself fails (the response
      status is not examined), every page with that id is dropped, the rest
      keep their order, and a deleted selection moves to the first remaining
      page, or to null when none remain. A valid selection stays valid, and
      deleting the selected page makes the selection valid whatever came before.
    */
    method DeletePage(id: string, confirmed: bool, fetchFailed: bool)
      modifies this
      ensures old(Valid()) ==> Valid()
      ensures confirmed && !fetchFailed && old(currentPageId) == Some(id) ==> Valid()
      ensures !confirmed ==> requests == old(requests)
      ensures confirmed ==> requests == old(requests) + [Delete(id)]
      ensures !confirmed || fetchFailed ==> pages == old(pages) && currentPageId == old(currentPageId)
      ensures confirmed && !fetchFailed ==>
                var remaining := if old(pages).Some? then RemoveById(old(pages).value, id) else [];
                && pages == Some(remaining)
                && currentPageId == if old(currentPageId) == Some(id)
                                    then (if remaining != [] then Some(remaining[0].id) else None)
                                    else old(currentPageId)
    {
      if !confirmed {
        return;
      }
      requests := requests + [Delete(id)];
      if fetchFailed {
        return;
      }
      var newPages := if pages.Some? then RemoveById(pages.value, id) else [];
      ghost var before := pages;
      pages := Some(newPages);
      if currentPageId == Some(id) {
        if |newPages| > 0 {
          currentPageId := Some(newPages[0].id);
          assert Listed(newPages, newPages[0].id);
        } else {
          currentPageId := None;
        }
      } else if currentPageId.Some? && before.Some? && Listed(before.value, currentPageId.value) {
        RemoveKeepsOthers(before.value, id, currentPageId.value);
      }
    }
  }

  /** Deleting the selected first of two pages selects the other one. */
  method DeleteSelectedScenario(a: Page, b: Page)
    requires a.id != b.id
  {
    var store := new PagesStore();
    store.Load(Some([a, b]));
    assert store.currentPageId == Some(a.id);
    store.DeletePage(a.id, true, false);
    assert [a, b][1..] == [b] && [b][1..] == [];
    assert RemoveById([b], a.id) == [b];
    assert RemoveById([a, b], a.id) == [b];
    assert store.pages == Some([b]) && store.currentPageId == Some(b.id);
  }

  /** A failed load leaves an empty, defined list: "no pages" rather than "loading". */
  method LoadFailureScenario()
  {
    var store := new PagesStore();
    store.Load(None);
    assert store.pages == Some([]) && store.Current() == NoPage;
  }

  /**
    A page created before the initial GET answers is lost when the GET then
    fails: the list becomes empty while the selection still names the
    temporary page, so no page is shown. Creating another page from there
    restores the selection invariant.
  */
  method LateLoadScenario(uuid: string)
  {
    var store := new PagesStore();
    store.CreatePage(uuid, 0, 0);
    store.Load(None);
    assert store.pages == Some([]) && store.currentPageId == Some(TempId(uuid));
    assert !store.Valid() && store.Current() == NoPage;
    store.CreatePage(uuid + "-next", 0, 0);
    assert store.Valid() && store.Current().Found?;
  }
}

=== FILE: schema_validation.dfy ===
/**
  The title and body schemas of the editor: a zod string schema with a
  minimum and a maximum length, each carrying its own message. `safeParse`
  runs every check and collects one issue per failed check, in the order the
  checks were declared (minimum first, then maximum).
*/
module SchemaValidation {

  /** `z.string().min(minLength, minMessage).max(maxLength, maxMessage)` */
  datatype StringSchema = StringSchema(minLength: nat, minMessage: string, maxLength: nat, maxMessage: string)

  /** What `safeParse` returns: the parsed string, or the issues' messages. */
  datatype ParseResult = Success(data: string) | Failure(issues: seq<string>)

  const TitleMinMessage := "タイトルは1文字以上で入力してください"
  const TitleMaxMessage := "タイトルは50文字以下で入力してください"
  const BodyMinMessage := "詳細は10文字以上で入力してください"
  const BodyMaxMessage := "詳細は2000文字以下で入力してください"

  /** A page title has 1 to 50 characters. */
  const TitleSchema := StringSchema(1, TitleMinMessage, 50, TitleMaxMessage)

  /** A page body has 10 to 2000 characters. */
  const BodySchema := StringSchema(10, BodyMinMessage, 2000, BodyMaxMessage)

  /** The schema's min and max bounds, both inclusive. */
  predicate Accepts(schema: StringSchema, value: string) {
    schema.minLength <= |value| <= schema.maxLength
  }

  /** The messages of the failed checks, minimum check first. */
  function Issues(schema: StringSchema, value: string): seq<string> {
    (if |value| < schema.minLength then [schema.minMessage] else [])
    + (if |value| > schema.maxLength then [schema.maxMessage] else [])
  }

  /** `schema.safeParse(value)` */
  function SafeParse(schema: StringSchema, value: string): (r: ParseResult)
    ensures r.Success? <==> Accepts(schema, value)
    ensures r.Success? ==> r.data == value
    ensures r.Failure? ==> 1 <= |r.issues| <= 2
    ensures r.Failure? && |value| < schema.minLength ==> r.issues[0] == schema.minMessage
    ensures r.Failure? && |value| > schema.maxLength ==> r.issues[|r.issues| - 1] == schema.maxMessage
  {
    var issues := Issues(schema, value);
    if issues == [] then Success(value) else Failure(issues)
  }

  /**
    For a schema whose bounds are in order, the minimum and maximum checks
    cannot both fail, so a rejected value carries exactly one issue and
    `issues[0]` names the check that failed.
  */
  lemma SingleIssue(schema: StringSchema, value: string)
    requires schema.minLength <= schema.maxLength
    requires !Accepts(schema, value)
    ensures SafeParse(schema, value).Failure?
    ensures SafeParse(schema, value).issues
         == [if |value| < schema.minLength then schema.minMessage else schema.maxMessage]
  {
  }

  /** The first issue's message of a rejected value, as the editor hook reads it. */
  function FirstIssue(schema: StringSchema, value: string): (message: string)
    requires schema.minLength <= schema.maxLength
    requires !Accepts(schema, value)
    ensures |value| < schema.minLength ==> message == schema.minMessage
    ensures |value| > schema.maxLength ==> message == schema.maxMessage
  {
    SingleIssue(schema, value);
    SafeParse(schema, value).issues[0]
  }

  /** `validateTitle(value)`: the title schema's verdict on `value`. */
  function ValidateTitle(value: string): (r: ParseResult)
    ensures r.Success? <==> 1 <= |value| <= 50
    ensures r.Success? ==> r.data == value
    ensures |value| == 0 ==> r == Failure([TitleMinMessage])
    ensures |value| > 50 ==> r == Failure([TitleMaxMessage])
  {
    SafeParse(TitleSchema, value)
  }

  /** `validateBody(value)`: the body schema's verdict on `value`. */
  function ValidateBody(value: string): (r: ParseResult)
    ensures r.Success? <==> 10 <= |value| <= 2000
    ensures r.Success? ==> r.data == value
    ensures |value| < 10 ==> r == Failure([BodyMinMessage])
    ensures |value| > 2000 ==> r == Failure([BodyMaxMessage])
  {
    SafeParse(BodySchema, value)
  }

  /** The verdict depends on the length of the value alone, not on its characters. */
  lemma VerdictDependsOnLengthOnly(schema: StringSchema, a: string, b: string)
    requires |a| == |b|
    ensures SafeParse(schema, a).Success? == SafeParse(schema, b).Success?
    ensures SafeParse(schema, a).Failure? ==> SafeParse(schema, a) == SafeParse(schema, b)
  {
  }
}

=== FILE: sidebar.dfy ===
/**
  The sidebar: the page list with a single edit-mode flag. Out of edit mode
  a click on a row selects that page; in edit mode row clicks are ignored,
  each row shows a delete button, and the footer offers "new page" and
  "done", both of which leave edit mode.
*/
module SidebarView {

  import opened Optional
  import opened PageTypes
  import opened Pages

  const UntitledLabel := "無題のページ"

  /** A row's label: the page title, or the untitled label when the title is empty. */
  function RowLabel(page: Page): (text: string)
    ensures page.title != "" ==> text == page.title
    ensures page.title == "" ==> text == UntitledLabel
  {
    if page.title != "" then page.title else UntitledLabel
  }

  class Sidebar {
    /** The collection whose `setCurrentPageId`, `createPage` and `deletePage` the sidebar calls. */
    const store: PagesStore

    var isEditMode: bool

    /** First render: edit mode off. */
    constructor(store: PagesStore)
      ensures this.store == store && !isEditMode
    {
      this.store := store;
      isEditMode := false;
    }

    /** A row is highlighted exactly when it is the selected page and edit mode is off. */
    predicate IsHighlighted(row: nat)
      reads this, store
      requires store.pages.Some? && row < |store.pages.value|
    {
      store.currentPageId == Some(store.pages.value[row].id) && !isEditMode
    }

    /** Delete buttons are rendered only in edit mode. */
    predicate ShowsDeleteButtons()
      reads this
    {
      isEditMode
    }

    /**
      A highlighted row never shows a delete button, and it carries the id of
      the page the editor shows; out of edit mode, the row holding the shown
      page is highlighted.
    */
    lemma HighlightMatchesCurrentPage(row: nat)
      requires store.pages.Some? && row < |store.pages.value|
      ensures IsHighlighted(row) ==> !ShowsDeleteButtons()
      ensures IsHighlighted(row) ==> store.Current().Found? && store.Current().page.id == store.pages.value[row].id
      ensures !isEditMode && store.Current() == Found(store.pages.value[row]) ==> IsHighlighted(row)
    {
      if IsHighlighted(row) {
        assert Listed(store.pages.value, store.pages.value[row].id);
      }
    }

    /** The edit button: enters edit mode. */
    method HandleEdit()
      modifies this
      ensures isEditMode
    {
      isEditMode := true;
    }

    /** `handleDone`: leaves edit mode and changes nothing else. */
    method HandleDone()
      modifies this
      ensures !isEditMode
    {
      isEditMode := false;
    }

    /** `handleNewPage`: one `createPage` call, then edit mode off. */
    method HandleNewPage(uuid: string, createdAt: int, updatedAt: int)
      modifies this, store
      ensures !isEditMode && store.Valid()
      ensures var newPage := Page(TempId(uuid), "", "", createdAt, updatedAt);
              && store.pages == Some((if old(store.pages).Some? then old(store.pages).value else []) + [newPage])
              && store.currentPageId == Some(newPage.id)
      ensures store.requests == old(store.requests)
    {
      store.CreatePage(uuid, createdAt, updatedAt);
      isEditMode := false;
    }

    /**
      `handleDelete` on a row's delete button: forwards that row's id to
      `deletePage`. Propagation stops here, so the row's select handler does
      not fire: the selection changes only as the deletion changes it, and
      edit mode stays on.
    */
    method HandleDelete(row: nat, confirmed: bool, fetchFailed: bool)
      requires store.pages.Some? && row < |store.pages.value|
      modifies store
      ensures old(store.Valid()) ==> store.Valid()
      ensures confirmed && !fetchFailed && old(store.currentPageId) == Some(old(store.pages.value[row].id)) ==> store.Valid()
      ensures var id := old(store.pages.value[row].id);
              && (!confirmed || fetchFailed ==> store.pages == old(store.pages) && store.currentPageId == old(store.currentPageId))
              && (confirmed && !fetchFailed ==>
                    var remaining := RemoveById(old(store.pages.value), id);
                    && store.pages == Some(remaining)
                    && store.currentPageId == if old(store.currentPageId) == Some(id)
                                              then (if remaining != [] then Some(remaining[0].id) else None)
                                              else old(store.currentPageId))
      ensures store.requests == old(store.requests) + (if confirmed then [Delete(old(store.pages.value[row].id))] else [])
    {
      var id := store.pages.value[row].id;
      store.DeletePage(id, confirmed, fetchFailed);
    }

    /** `handleSelectPage` on a row: selects that row's page unless edit mode is on. */
    method HandleSelectPage(row: nat)
      requires store.pages.Some? && row < |store.pages.value|
      modifies store`currentPageId
      ensures !isEditMode || old(store.Valid()) ==> store.Valid()
      ensures !isEditMode ==> store.currentPageId == Some(store.pages.value[row].id)
      ensures isEditMode ==> store.currentPageId == old(store.currentPageId)
    {
      if !isEditMode {
        var id := store.pages.value[row].id;
        assert Listed(store.pages.value, id);
        store.SetCurrentPageId(id);
      }
    }
  }

  /**
    A PUT answered with another id leaves the list showing the new record
    while the selection still names the old id; a click on that row
    selects it and the selection is valid again.
  */
  method RowClickRepairsSelection(a: Page, r: Page)
    requires !IsNewPage(a.id) && r.id != a.id
  {
    var store := new PagesStore();
    store.Load(Some([a]));
    store.UpdatePage(a.id, PageInput(Some(a.title), Some(a.body)), Some(r));
    var replaced := ReplaceById([a], a.id, r);
    assert |replaced| == 1 && replaced[0] == r;
    assert replaced == [r];
    assert store.pages == Some([r]) && store.currentPageId == Some(a.id);
    assert !store.Valid();
    var sidebar := new Sidebar(store);
    sidebar.HandleSelectPage(0);
    assert store.Valid() && store.Current() == Found(r);
  }
}
